=== FILE: README.md ===
# YouTube downloader: stream selection and download offer, in Dafny

`youtube_downloader_app.py` is a Streamlit page around pytube. The user pastes a
URL and chooses "Video (MP4)" with a quality or "Audio only". The page then
fetches one of the video's streams and offers it through a download button.
Everything on the page is UI or network glue except a few decision rules inside
the download handler. This project lifts those rules out as pure functions over
an immutable stream list and proves properties about them:

- **Video stream selection** (`Selection`). The candidates are the progressive
  MP4 streams. If there are none, every progressive stream is a candidate. If
  there are still none, the download stops with `NoCompleteVideoStream`.
  - "Best" and "Worst" take the answer of pytube's `get_highest_resolution` /
    `get_lowest_resolution`, or the first candidate when the helper answers
    nothing.
  - A tier label such as "720p" names a target height. The pick is the head of
    the candidates at or below that height, stably sorted tallest first. When no
    candidate qualifies, the pick falls back to the lowest-resolution helper and
    then to the first candidate.
- **Audio stream selection** (`Selection.SelectAudio`). The pick is the first
  audio-only MP4 stream, else the first audio-only stream, else the download
  stops with `NoAudioStream`. The rule is the same whether or not ffmpeg is
  present.
- **The download offer** (`Delivery`).
  - The branch that fetched the stream sets an extension and a MIME type.
  - The saved file's suffix may override them. The suffix is lowercased and its
    dot is stripped. `m4a`, `mp4` and `webm` fix the MIME type by download kind.
    Any other suffix keeps the MIME type.
  - The format label, which the button shows after "Download ", is "Video", or
    "Audio (EXT)".
  - The file name is the title cut to 50 characters, a dot, and the extension.
  - `Download` takes the audio MIME rule as a parameter. `AsWritten` is the
    handler's test at lines 150 and 163. `Corrected` is the rule the table at
    217-221 evidently intends (see "## Findings"). Every property of the handler
    is stated for both rules, except where the two differ.
- **The duration** shown as `m:ss` (`Delivery.DurationText`).

The stream list operations live in `Streams`. These are `filter(...)`,
`.first()`, and `sorted(..., reverse=True)` as a stable insertion sort. The
Python string operations the rules use live in `Text`: `str(n)`, `int(s)`,
`:02d`, `lower`/`upper`, `replace`, `lstrip` and slicing. Option and Result live
in `Common`.

Some inputs come from outside the handler and are parameters here:
- pytube's two resolution helpers, as functions that answer with one of the
  streams or with nothing;
- whether ffmpeg is installed;
- whether the MP3 conversion succeeded;
- the suffix of the file the library saved;
- the video's title.

Other variants of this app in the repository build a format expression for a
different extraction library and merge separate streams with a transcoder.
This model follows `youtube_downloader_app.py`, where ffmpeg only decides
whether audio is converted to MP3, and where the video rule always uses
progressive streams.

Python's `//` and `%` floor, and Dafny's Euclidean `/` and `%` agree with them
for the divisor 60. `DurationFields` is therefore exact for every length,
negative ones included.

## Model

| member | source | states |
|---|---|---|
| Selection.ParseTier | youtube_downloader_app.py:189 | A tier label is accepted exactly when what remains after removing every "p" is a non-empty run of digits. An accepted label is never empty. |
| Selection.VideoCandidates | youtube_downloader_app.py:171-180 | The candidates are exactly the progressive streams, restricted to MP4 ones whenever any progressive MP4 stream exists. They are the filter of the whole list by that one condition, so they keep the list order and multiplicity. Their first entry is the first such stream of the list. The list is never empty. The download stops with NoCompleteVideoStream exactly when no stream is progressive. |
| Selection.OrFirst | youtube_downloader_app.py:201-202 | A helper's answer is kept when there is one. Otherwise the first candidate is used. Either way the result is a candidate. |
| Selection.PickByQuality | youtube_downloader_app.py:182-202 | The pick is always one of the candidates. An invalid tier label is the only error. Best returns the highest-resolution helper's answer and Worst the lowest-resolution helper's answer when there is one. Otherwise they fall back to the first candidate. A tier with no candidate at or below it falls back to the lowest-resolution helper, then to the first candidate. |
| Selection.SelectVideo | youtube_downloader_app.py:171-202 | A video stream is fetched exactly when some stream is progressive and the quality is not a tier label that fails to parse. The fetched stream is progressive and comes from the list. It is MP4 whenever a progressive MP4 stream exists. The NoCompleteVideoStream error happens exactly when no stream is progressive. Any other error is InvalidQuality for the tier label. Best and Worst fetch the highest- and lowest-resolution helpers' answer on the candidates. A tier with no candidate at or below it fetches the lowest-resolution helper's answer. When that helper finds nothing, the first candidate stream of the list is fetched. |
| Selection.TierPick | youtube_downloader_app.py:189-197 | For a numeric tier, when some candidate is at or below the target, the pick has a resolution and is no taller than the target. It is the earliest of the tallest such candidates, and no other candidate is. |
| Selection.TierPickInList | youtube_downloader_app.py:171-197 | For a numeric tier with some candidate stream at or below the target, the fetched stream is the earliest in the whole list of the tallest candidates at or below the target. No other stream is. |
| Selection.TierMonotone | youtube_downloader_app.py:189-197 | Lowering the tier never raises the height of the pick, as long as the lower tier still has a candidate at or below it. |
| Selection.TierExample | youtube_downloader_app.py:189-197 | With a 1080p and a 720p MP4 stream, the "720p" tier fetches the 720p stream. |
| Selection.TierLabelRoundTrip | youtube_downloader_app.py:189 | Removing the "p" from a label written as a height plus "p" and reading the rest as an integer gives back that height. |
| Selection.SelectAudio | youtube_downloader_app.py:129-166 | Audio selection fails with NoAudioStream exactly when no stream is audio-only. If an audio-only MP4 stream exists, the pick is the first one. Otherwise the pick is the first audio-only stream. |
| Streams.First | youtube_downloader_app.py:129-131 | `filter(...).first()` answers nothing exactly when no stream matches. Otherwise it answers the stream at the first matching position. |
| Streams.Keep | youtube_downloader_app.py:192 | A stream is kept exactly when it is in the list and passes the condition. The result is never longer than the list. |
| Streams.KeepExactly | youtube_downloader_app.py:171-177 | The filter keeps each passing stream as often as it occurs and drops every other one. The kept streams stay in list order. Together these determine the filtered list. |
| Streams.KeepKeep | youtube_downloader_app.py:171-192 | Filtering the candidates by height is the same as filtering the whole list once by both conditions. |
| Streams.KeepHeadIsFirst | youtube_downloader_app.py:129-131 | The first entry of a non-empty filter is the stream `.first()` answers for the same condition. |
| Streams.SortByHeightDesc | youtube_downloader_app.py:191-195 | The sort keeps the length of the list. Its order and contents are stated by SortPermutes, SortDescending and SortedKeepHead. |
| Streams.SortedKeepHead | youtube_downloader_app.py:191-197 | The head of the filtered list, stably sorted tallest first, is the unique earliest of the tallest streams that pass the filter. |
| Streams.SortPermutes | youtube_downloader_app.py:191-195 | The sort keeps exactly the same streams, each as often as it was given. |
| Streams.SortDescending | youtube_downloader_app.py:191-195 | The sorted streams' heights never increase. |
| Delivery.Retype | youtube_downloader_app.py:214-225 | An empty suffix changes nothing. Otherwise the extension is the lowercased suffix without its leading dots. A known extension (m4a, mp4, webm) takes its MIME type for the download kind. An unknown one keeps the previous MIME type. |
| Delivery.RetypeKeepsAudioMime | youtube_downloader_app.py:214-225 | An audio download that starts with an audio MIME type keeps one through retyping. |
| Delivery.MimeForExtension | youtube_downloader_app.py:217-225 | The MIME type assigned to m4a, mp4 and webm matches the reference table for the download kind. Other extensions keep the current MIME type. |
| Delivery.FormatLabel | youtube_downloader_app.py:228-233 | Video downloads are labelled "Video". Audio downloads are labelled "Audio (" + the upper-cased extension + ")", so the special case for mp3 agrees with the general rule. |
| Delivery.LabelNamesExtension | youtube_downloader_app.py:229 | An audio label has eight characters more than the extension, starts with "Audio (", and gives back a lower-case extension when its middle is lowercased. |
| Delivery.Finish | youtube_downloader_app.py:214-239 | The offer carries the fetched stream. With an empty suffix it keeps the branch's extension. Otherwise the extension is the lowercased suffix with its leading dots stripped. A non-empty suffix whose extension is m4a, mp4 or webm takes that extension's MIME type for the kind. Otherwise the branch's MIME type stays. The file name is the title, cut to 50 characters, then a dot, then the extension, which reads back as the text after the last dot. The label is "Video", or "Audio (" + the upper-cased extension + ")". |
| Delivery.FileName | youtube_downloader_app.py:239 | A title of at most 50 characters appears whole before the dot. A longer title is cut to its first 50 characters. The name is never longer than 51 characters plus the extension. |
| Delivery.FileNameKeepsExtension | youtube_downloader_app.py:239 | Whatever the title, the text after the file name's last dot is the chosen extension. |
| Delivery.DurationFields | youtube_downloader_app.py:95 | The seconds lie in 0..59, and minutes * 60 + seconds equals the length. The minutes are non-negative for a non-negative length. |
| Delivery.DurationText | youtube_downloader_app.py:245 | The text ends in a colon and two digits. The minutes are written as `str(m)`: no leading zero unless the minutes are 0, and none after a minus sign. With DurationRoundTrip, this fixes the text uniquely. |
| Delivery.DurationRoundTrip | youtube_downloader_app.py:95 | Reading the `m:ss` text back gives the original length. |
| Delivery.DurationTextInjective | youtube_downloader_app.py:245 | Two different lengths never show the same duration text. |
| Delivery.Download | youtube_downloader_app.py:124-242 | Under either audio MIME rule, an audio download fails exactly when no stream is audio-only, and then with NoAudioStream. A video download succeeds exactly when SelectVideo does. It fails with NoCompleteVideoStream exactly when no stream is progressive. An audio offer carries the first audio-only MP4 stream of the list, else the first audio-only stream. Its MIME type is an audio one, and its label is "Audio (" + the upper-cased extension + ")". Unconverted audio saved with no suffix keeps the stream's subtype as its extension, and gets the MIME type of the chosen rule. A video offer carries the stream the quality setting selects, with the label "Video". With no suffix it is "mp4" with video/mp4. Under an extension the table does not know, it keeps video/mp4. A non-empty suffix, apart from a finished conversion, gives the extension as the lowercased suffix with its leading dots stripped. The file name is always FileName of the title and the extension. A dot-free extension can be read back from the file name. |
| Delivery.ConvertedAudioIsMp3 | youtube_downloader_app.py:138-146 | Under either rule, when ffmpeg converts the audio, the offer is an MP3 file labelled "Audio (MP3)" with MIME type audio/mpeg, and its name ends in ".mp3". |
| Delivery.OwnSuffixOffer | youtube_downloader_app.py:214-233 | When the saved file's suffix is a dot and the lower-case extension the branch already chose, the offer keeps that extension. It takes the table's MIME type for it, or keeps the old one. It is labelled "Audio (" + the upper-cased extension + ")" and named after the title. |
| Delivery.ConvertedFileKeepsMp3 | youtube_downloader_app.py:214-233 | The ".mp3" suffix of the converted file leaves its extension and MIME type as they were, and labels it "Audio (MP3)". |
| Delivery.OfferMimeMatchesExtension | youtube_downloader_app.py:214-225 | With the corrected audio rule, whatever branch produced it, an offer whose extension is m4a, mp4 or webm carries that extension's MIME type for the download kind. |
| Delivery.OfferMimeMismatch | youtube_downloader_app.py:124-225 | An offer's MIME type disagrees with the table for its extension exactly in one case. The rule is as written, the download is audio and not converted, the saved file has no suffix, and the chosen audio stream's subtype is "mp4". |
| Delivery.Mp4AudioOfferedAsWebm | youtube_downloader_app.py:156-163 | When an audio-only MP4 stream exists, is not converted and is saved without a suffix, the handler as written offers "<title>.mp4" as audio/webm, against the table's audio/mp4. The corrected rule offers it as audio/mp4. |
| Delivery.AudioMimeAsWritten | youtube_downloader_app.py:162-163 | The MIME type before retyping is audio/mp4 exactly when the subtype is "m4a". Every other subtype gets audio/webm. |
| Delivery.Mp4AudioTypedWebmAsWritten | youtube_downloader_app.py:156-163 | The stream preferred by the MP4 filter has subtype "mp4", so the code as written gives it audio/webm, which disagrees with the MP4 table entry. |
| Delivery.AudioMime | youtube_downloader_app.py:162-163 | Corrected rule: an audio MIME type that matches the table for m4a, mp4 and webm, and agrees with the code as written for every subtype except "mp4". |
| Text.NatStringRoundTrip | youtube_downloader_app.py:95 | Reading back the decimal text of a number gives the number. |
| Text.IntString | youtube_downloader_app.py:244 | `str(i)` as the duration's minutes use it: non-empty, no leading zero unless it is "0", and no zero right after a minus sign. |

## Left out

- The Streamlit UI is left out because it is presentation only. This covers the page setup, sidebar, buttons, spinners, messages, expanders, footer and `st.session_state` (lines 8-111, 235-237, 246-275).
- pytube's `YouTube(url)`, its metadata properties and `.download(...)` are left out as network I/O. The stream list, the title and the saved file's suffix are parameters.
- `get_highest_resolution` and `get_lowest_resolution` are library code outside this repository. They are the parameters `highest` and `lowest`, and all that is assumed is that each answers with one of the candidates or with nothing. For the same reason, no property compares the "Worst" pick with the "Best" pick.
- ffmpeg detection (lines 18-22) and the MP3 conversion subprocess (lines 137-150) are external processes. They are the parameters `hasFfmpeg` and `converted`.
- The temporary directory and reading the saved file (lines 119, 210-211) are filesystem I/O.
- `Path(file_path).suffix` is pathlib's rule, so the saved file's suffix is a parameter. Only the converted file's suffix, ".mp3" from "audio.mp3", is fixed by the handler.
- The exception handler and its error texts (lines 108-111, 249-255) are UI glue. A tier label that `int()` rejects becomes the `InvalidQuality` error.
- The format caption (lines 207, 246-247) and the "Get Video Info" display (lines 86-107) are presentation. The duration they show uses the same formula as `DurationText`.
- Selection.ParseTier: accepts only ASCII digit strings after the "p"s are removed. Python's `int()` also accepts surrounding whitespace, a sign, underscores and non-ASCII digits. The sidebar's labels never use these.
- Streams.Stream: keeps a stream's resolution as its height. `int(s.resolution.replace('p', ''))` therefore cannot fail here, while pytube's "NNNp" labels are assumed well formed.
- Text.Lower: models `str.lower` for ASCII letters only; Text.Upper does the same for `str.upper`. File suffixes and extensions are ASCII in practice.
- Selection.OrFirst: `if not selected_stream` is modelled as a test for None, since a pytube Stream object is always truthy.

## Findings

| source | as written | input that shows it | evidently intended | confidence | as-written member | corrected member |
|---|---|---|---|---|---|---|
| youtube_downloader_app.py:162-163 | An audio stream kept in its own container gets `audio/mp4` only when its subtype is "m4a", and `audio/webm` otherwise. The same test appears at 149-150. | An audio-only stream with subtype "mp4", which is the one `filter(only_audio=True, file_extension='mp4')` at 156 prefers, saved to a file without a suffix. It is offered as "<title>.mp4" with MIME type audio/webm. | MP4 audio is offered as audio/mp4, as the retyping table at 217-221 does for an "mp4" suffix. | medium, not executed (depends on the library saving `filename="audio"` without a suffix) | Delivery.Mp4AudioOfferedAsWebm | Delivery.OfferMimeMatchesExtension |

=== FILE: common.dfy ===
/** Option and Result values shared by the download rules. */
module Common {

  /** A value that may be missing: Python's `None` or an object. */
  datatype Option<+T> = None | Some(value: T) {

    /** The value, or `default` when it is missing. */
    function GetOr(default: T): (r: T) {
      match this
      case Some(v) => v
      case None => default
    }
  }

  /** The outcome of a rule that can stop the download with an error message. */
  datatype Result<+T, +E> = Ok(value: T) | Err(error: E)
}

=== FILE: delivery.dfy ===
/**
  What the download button offers once a stream has been fetched: the file
  name, the MIME type and the format label, derived from the stream, the
  downloaded file's suffix and the video's title; and the `m:ss` duration
  shown beside it.
 */
module Delivery {
  import opened Common
  import opened Text
  import opened Streams
  import opened Selection

  /** The sidebar's "Select format" choice: "Video (MP4)" or "Audio only". */
  datatype Kind = Video | Audio

  /** The extension and MIME type the handler carries towards the download button. */
  datatype FileType = FileType(extension: string, mime: string)

  /** What the download button offers. */
  datatype Offer = Offer(stream: Stream, extension: string, fileName: string, mime: string, formatLabel: string)

  /** The MIME types the handler knows for a file extension, by download kind. */
  function KnownMime(kind: Kind): (r: map<string, string>) {
    map[
      "m4a" := "audio/mp4",
      "mp4" := if kind == Audio then "audio/mp4" else "video/mp4",
      "webm" := if kind == Audio then "audio/webm" else "video/webm"
    ]
  }

  predicate IsAudioMime(mime: string) {
    |mime| >= 6 && mime[..6] == "audio/"
  }

  /**
    The MIME type given to an audio stream kept in its own container, as the
    handler writes it: only the subtype "m4a" counts as MP4 audio.
   */
  function AudioMimeAsWritten(subtype: string): (r: string)
    ensures r == "audio/mp4" <==> subtype == "m4a"
    ensures r == "audio/mp4" || r == "audio/webm"
    ensures IsAudioMime(r)
  {
    if subtype == "m4a" then "audio/mp4" else "audio/webm"
  }

  /**
    The stream the audio rule prefers is an MP4 one, so its subtype is "mp4",
    never "m4a", and the rule as written labels it "audio/webm".
   */
  lemma Mp4AudioTypedWebmAsWritten(streams: seq<Stream>)
    requires exists j :: 0 <= j < |streams| && IsAudioOnlyMp4(streams[j])
    ensures SelectAudio(streams).Ok?
    ensures SelectAudio(streams).value.subtype == "mp4"
    ensures AudioMimeAsWritten(SelectAudio(streams).value.subtype) == "audio/webm"
    ensures AudioMimeAsWritten("mp4") != KnownMime(Audio)["mp4"]
  {
    var x := SelectAudio(streams).value;
    assert IsFirst(streams, IsAudioOnlyMp4, x);
    var i :| 0 <= i < |streams| && streams[i] == x && IsAudioOnlyMp4(x);
  }

  /** The MIME type for an audio stream kept in its own container: MP4 audio for "m4a" and "mp4". */
  function AudioMime(subtype: string): (r: string)
    ensures IsAudioMime(r)
    ensures subtype in KnownMime(Audio) ==> r == KnownMime(Audio)[subtype]
    ensures subtype != "mp4" ==> r == AudioMimeAsWritten(subtype)
  {
    if subtype == "m4a" || subtype == "mp4" then "audio/mp4" else "audio/webm"
  }

  /** The MIME type for a file with `extension`: the known one, else `current`. */
  function MimeForExtension(extension: string, kind: Kind, current: string): (r: string)
    ensures extension in KnownMime(kind) ==> r == KnownMime(kind)[extension]
    ensures extension !in KnownMime(kind) ==> r == current
  {
    if extension == "m4a" then "audio/mp4"
    else if extension == "mp4" then
      if kind == Audio then "audio/mp4" else "video/mp4"
    else if extension == "webm" then
      if kind == Audio then "audio/webm" else "video/webm"
    else current
  }

  /**
    The downloaded file's suffix, lowercased and stripped of its dot, becomes
    the extension, and a known extension fixes the MIME type; an unknown one
    keeps the MIME type, and an empty suffix changes nothing.
   */
  function Retype(suffix: string, kind: Kind, current: FileType): (r: FileType)
    ensures suffix == [] ==> r == current
    ensures suffix != [] ==> r.extension == StripLeadingDots(Lower(suffix))
    ensures suffix != [] ==> r.mime == (if r.extension in KnownMime(kind) then KnownMime(kind)[r.extension] else current.mime)
  {
    var fileExt := Lower(suffix);
    if fileExt == [] then current
    else
      var extension := StripLeadingDots(fileExt);
      FileType(extension, MimeForExtension(extension, kind, current.mime))
  }

  /** An audio download keeps an audio MIME type through retyping. */
  lemma RetypeKeepsAudioMime(suffix: string, current: FileType)
    requires IsAudioMime(current.mime)
    ensures IsAudioMime(Retype(suffix, Audio, current).mime)
  {
  }

  /**
    The format label the download button shows after "Download ": "Video", or
    "Audio (EXT)" with the extension upper-cased.
   */
  function FormatLabel(kind: Kind, extension: string): (r: string)
    ensures kind == Video ==> r == "Video"
    ensures kind == Audio ==> r == "Audio (" + Upper(extension) + ")"
  {
    if kind == Audio then
      if extension == "mp3" then
        assert Upper("mp3") == "MP3";
        "Audio (MP3)"
      else "Audio (" + Upper(extension) + ")"
    else "Video"
  }

  /** A lower-case extension can be read back from an audio label. */
  lemma {:induction false} LabelNamesExtension(extension: string)
    requires forall i :: 0 <= i < |extension| ==> !('A' <= extension[i] <= 'Z')
    ensures var text := FormatLabel(Audio, extension);
      |text| == |extension| + 8 && text[..7] == "Audio (" && Lower(text[7..|text| - 1]) == extension
  {
    var text := FormatLabel(Audio, extension);
    assert text[7..|text| - 1] == Upper(extension);
    forall i | 0 <= i < |extension| ensures LowerChar(UpperChar(extension[i])) == extension[i] {
    }
  }

  /** The longest title prefix kept in a file name. */
  const TitleLimit: nat := 50

  /** The download's file name: the title cut to its first 50 characters, a dot, and the extension. */
  function FileName(title: string, extension: string): (r: string)
    ensures |r| <= TitleLimit + 1 + |extension|
    ensures |title| <= TitleLimit ==> r == title + "." + extension
    ensures |title| > TitleLimit ==> r == title[..TitleLimit] + "." + extension
  {
    Prefix(title, TitleLimit) + "." + extension
  }

  /** Whatever the title, the file name ends in the extension chosen for it. */
  lemma FileNameKeepsExtension(title: string, extension: string)
    requires '.' !in extension
    ensures AfterLastDot(FileName(title, extension)) == Some(extension)
  {
    AfterLastDotOfJoin(Prefix(title, TitleLimit), extension);
  }

  /** A length in seconds split, by floor division, into whole minutes and the seconds left over. */
  function DurationFields(length: int): (r: (int, nat))
    ensures r.1 < 60
    ensures r.0 * 60 + r.1 == length
    ensures length >= 0 ==> r.0 >= 0
  {
    (length / 60, length % 60)
  }

  /** The duration shown beside the download: the minutes, a colon, and the seconds as two digits. */
  function DurationText(length: int): (r: string)
    ensures |r| >= 4 && r[|r| - 3] == ':' && AllDigits(r[|r| - 2..])
    ensures |r| == 4 || r[0] != '0'
    ensures r[0] == '-' ==> r[1] != '0'
  {
    var fields := DurationFields(length);
    var r := IntString(fields.0) + ":" + Pad2(fields.1);
    assert r[|r| - 2..] == Pad2(fields.1);
    r
  }

  /** Reads an `m:ss` duration back into seconds. */
  function ParseDuration(text: string): (r: Option<int>) {
    if |text| < 4 || text[|text| - 3] != ':' then None
    else
      match (ParseInt(text[..|text| - 3]), ParseNat(text[|text| - 2..]))
      case (Some(minutes), Some(seconds)) =>
        if seconds < 60 then Some(minutes * 60 + seconds) else None
      case _ => None
  }

  /** The shown duration reads back as the original length, so no two lengths look alike. */
  lemma DurationRoundTrip(length: int)
    ensures ParseDuration(DurationText(length)) == Some(length)
  {
    var fields := DurationFields(length);
    var text := DurationText(length);
    assert text[..|text| - 3] == IntString(fields.0);
    assert text[|text| - 2..] == Pad2(fields.1);
    IntStringRoundTrip(fields.0);
  }

  lemma DurationTextInjective(a: int, b: int)
    requires DurationText(a) == DurationText(b)
    ensures a == b
  {
    DurationRoundTrip(a);
    DurationRoundTrip(b);
  }

  /**
    Which rule gives the MIME type of audio kept in its own container:
    `AsWritten` is the handler's test for "m4a" alone, `Corrected` also
    treats "mp4" as MP4 audio.
   */
  datatype AudioMimeRule = AsWritten | Corrected

  /** The user's choices and the environment the handler finds. */
  datatype Request = Request(kind: Kind, quality: Quality, hasFfmpeg: bool)

  /** The file the MP3 conversion writes is "audio.mp3"; its suffix. */
  const ConvertedSuffix: string := ".mp3"

  /**
    The offer made for a fetched stream, starting from the file type its
    branch set: the saved file's suffix retypes it, and the name and label
    follow the retyped extension.
   */
  function Finish(kind: Kind, stream: Stream, start: FileType, suffix: string, title: string): (r: Offer)
    ensures r.stream == stream
    ensures suffix == [] ==> r.extension == start.extension
    ensures suffix != [] ==> r.extension == StripLeadingDots(Lower(suffix))
    ensures r.mime == if suffix != [] && r.extension in KnownMime(kind) then KnownMime(kind)[r.extension] else start.mime
    ensures '.' !in r.extension ==> AfterLastDot(r.fileName) == Some(r.extension)
    ensures |title| <= TitleLimit ==> r.fileName == title + "." + r.extension
    ensures |title| > TitleLimit ==> r.fileName == title[..TitleLimit] + "." + r.extension
    ensures kind == Video ==> r.formatLabel == "Video"
    ensures kind == Audio ==> r.formatLabel == "Audio (" + Upper(r.extension) + ")"
  {
    var t := Retype(suffix, kind, start);
    var name := FileName(title, t.extension);
    assert '.' !in t.extension ==> AfterLastDot(name) == Some(t.extension) by {
      if '.' !in t.extension {
        FileNameKeepsExtension(title, t.extension);
      }
    }
    Offer(stream, t.extension, name, t.mime, FormatLabel(kind, t.extension))
  }

  /**
    The download handler from the fetched stream list to the download button.
    `converted` says whether the ffmpeg conversion to MP3 succeeded, and
    `savedSuffix` is the suffix of the file the library saved; both come from
    outside the handler. `rule` chooses between the audio MIME test as the
    handler writes it and the corrected one.
   */
  function Download(
    rule: AudioMimeRule,
    req: Request,
    streams: seq<Stream>,
    highest: seq<Stream> -> Option<Stream>,
    lowest: seq<Stream> -> Option<Stream>,
    converted: bool,
    savedSuffix: string,
    title: string
  ): (r: Result<Offer, Failure>)
    requires HelpersPickFrom(highest, lowest, streams)
    ensures req.kind == Audio ==> (r == Err(NoAudioStream) <==> forall j :: 0 <= j < |streams| ==> !streams[j].onlyAudio)
    ensures req.kind == Video ==> (r == Err(NoCompleteVideoStream) <==> forall j :: 0 <= j < |streams| ==> !streams[j].progressive)
    ensures r.Ok? ==> r.value.stream in streams
    ensures r.Ok? && req.kind == Audio ==> r.value.stream.onlyAudio && IsAudioMime(r.value.mime)
    ensures r.Ok? && req.kind == Audio && (exists j :: 0 <= j < |streams| && IsAudioOnlyMp4(streams[j])) ==>
      IsFirst(streams, IsAudioOnlyMp4, r.value.stream)
    ensures r.Ok? && req.kind == Audio && (forall j :: 0 <= j < |streams| ==> !IsAudioOnlyMp4(streams[j])) ==>
      IsFirst(streams, IsAudioOnly, r.value.stream)
    ensures r.Ok? && req.kind == Audio ==> r.value.formatLabel == "Audio (" + Upper(r.value.extension) + ")"
    ensures r.Ok? && req.kind == Video ==> Ok(r.value.stream) == SelectVideo(streams, req.quality, highest, lowest)
    ensures r.Ok? && req.kind == Video ==> r.value.stream.progressive && r.value.formatLabel == "Video"
    ensures r.Ok? && '.' !in r.value.extension ==> AfterLastDot(r.value.fileName) == Some(r.value.extension)
    ensures req.kind == Audio ==> (r.Err? <==> forall j :: 0 <= j < |streams| ==> !streams[j].onlyAudio)
    ensures req.kind == Video ==> (r.Ok? <==> SelectVideo(streams, req.quality, highest, lowest).Ok?)
    ensures r.Ok? ==> r.value.fileName == FileName(title, r.value.extension)
    ensures r.Ok? && savedSuffix != [] && !(req.kind == Audio && req.hasFfmpeg && converted) ==>
      r.value.extension == StripLeadingDots(Lower(savedSuffix))
    ensures r.Ok? && req.kind == Video && savedSuffix == [] ==> r.value.extension == "mp4" && r.value.mime == "video/mp4"
    ensures r.Ok? && req.kind == Video && r.value.extension !in KnownMime(Video) ==> r.value.mime == "video/mp4"
    ensures r.Ok? && req.kind == Audio && !(req.hasFfmpeg && converted) && savedSuffix == [] ==>
      && r.value.extension == r.value.stream.subtype
      && r.value.mime == if rule == AsWritten then AudioMimeAsWritten(r.value.stream.subtype) else AudioMime(r.value.stream.subtype)
  {
    match req.kind
    case Audio =>
      (match SelectAudio(streams)
      case Err(e) => Err(e)
      case Ok(s) =>
        assert s in streams && s.onlyAudio by {
          assert IsFirst(streams, IsAudioOnlyMp4, s) || IsFirst(streams, IsAudioOnly, s);
        }
        if req.hasFfmpeg && converted then
          RetypeKeepsAudioMime(ConvertedSuffix, FileType("mp3", "audio/mpeg"));
          Ok(Finish(Audio, s, FileType("mp3", "audio/mpeg"), ConvertedSuffix, title))
        else
          var start := FileType(s.subtype, if rule == AsWritten then AudioMimeAsWritten(s.subtype) else AudioMime(s.subtype));
          RetypeKeepsAudioMime(savedSuffix, start);
          Ok(Finish(Audio, s, start, savedSuffix, title)))
    case Video =>
      match SelectVideo(streams, req.quality, highest, lowest)
      case Err(e) => Err(e)
      case Ok(s) => Ok(Finish(Video, s, FileType("mp4", "video/mp4"), savedSuffix, title))
  }

  /** A successful conversion always offers an MP3 file. */
  lemma ConvertedAudioIsMp3(
    rule: AudioMimeRule,
    streams: seq<Stream>,
    quality: Quality,
    highest: seq<Stream> -> Option<Stream>,
    lowest: seq<Stream> -> Option<Stream>,
    savedSuffix: string,
    title: string
  )
    requires HelpersPickFrom(highest, lowest, streams)
    requires exists j :: 0 <= j < |streams| && streams[j].onlyAudio
    ensures var r := Download(rule, Request(Audio, quality, true), streams, highest, lowest, true, savedSuffix, title);
      && r.Ok?
      && r.value.extension == "mp3"
      && r.value.mime == "audio/mpeg"
      && r.value.formatLabel == "Audio (MP3)"
      && AfterLastDot(r.value.fileName) == Some("mp3")
  {
    var s := SelectAudio(streams).value;
    ConvertedOffer(s, title);
    assert Download(rule, Request(Audio, quality, true), streams, highest, lowest, true, savedSuffix, title)
        == Ok(Finish(Audio, s, FileType("mp3", "audio/mpeg"), ConvertedSuffix, title));
  }

  /** The offer for a converted file is an MP3 file named after the title. */
  lemma ConvertedOffer(s: Stream, title: string)
    ensures var offer := Finish(Audio, s, FileType("mp3", "audio/mpeg"), ConvertedSuffix, title);
      && offer.extension == "mp3"
      && offer.mime == "audio/mpeg"
      && offer.formatLabel == "Audio (MP3)"
      && AfterLastDot(offer.fileName) == Some("mp3")
  {
    ConvertedFileKeepsMp3();
    FileNameKeepsExtension(title, "mp3");
  }

  /** A file whose suffix is its own lower-case extension keeps that extension. */
  lemma RetypeOwnSuffix(extension: string, kind: Kind, mime: string)
    requires extension != [] && extension[0] != '.' && Lower(extension) == extension
    ensures Retype("." + extension, kind, FileType(extension, mime))
         == FileType(extension, MimeForExtension(extension, kind, mime))
  {
    var suffix := "." + extension;
    assert Lower(suffix) == suffix by {
      forall i | 0 < i < |suffix| ensures LowerChar(suffix[i]) == suffix[i] {
        assert suffix[i] == extension[i - 1] == Lower(extension)[i - 1];
      }
    }
    assert suffix[1..] == extension;
  }

  /**
    A file saved under its own lower-case extension is offered under that
    extension, with the MIME type the table gives it (or the one it had), and
    a label naming the extension.
   */
  lemma OwnSuffixOffer(s: Stream, extension: string, mime: string, title: string)
    requires extension != [] && extension[0] != '.' && Lower(extension) == extension
    ensures var offer := Finish(Audio, s, FileType(extension, mime), "." + extension, title);
      && offer.extension == extension
      && offer.mime == MimeForExtension(extension, Audio, mime)
      && offer.formatLabel == "Audio (" + Upper(extension) + ")"
      && offer.fileName == FileName(title, extension)
  {
    RetypeOwnSuffix(extension, Audio, mime);
  }

  /** The suffix of "audio.mp3" leaves the converted file's type as it is. */
  lemma ConvertedFileKeepsMp3()
    ensures Retype(ConvertedSuffix, Audio, FileType("mp3", "audio/mpeg")) == FileType("mp3", "audio/mpeg")
    ensures FormatLabel(Audio, "mp3") == "Audio (MP3)"
  {
    Mp3Letters();
    Mp3Unknown(Audio, "audio/mpeg");
    RetypeOwnSuffix("mp3", Audio, "audio/mpeg");
    assert "." + "mp3" == ConvertedSuffix;
  }

  /** "mp3" is lower case already, and upper-cases to "MP3". */
  lemma Mp3Letters()
    ensures Lower("mp3") == "mp3"
    ensures Upper("mp3") == "MP3"
  {
    assert Lower("mp3") == "mp3";
    assert Upper("mp3") == "MP3";
  }

  /** The table has no entry for "mp3", so that extension keeps its MIME type. */
  lemma Mp3Unknown(kind: Kind, mime: string)
    ensures "mp3" !in KnownMime(kind)
    ensures MimeForExtension("mp3", kind, mime) == mime
  {
    assert "mp3" != "m4a" && "mp3" != "mp4" && "mp3" != "webm";
  }

  /**
    With the corrected rule, whatever branch produced it, an offer whose
    extension the handler knows carries that extension's MIME type for the
    download kind.
   */
  lemma OfferMimeMatchesExtension(
    req: Request,
    streams: seq<Stream>,
    highest: seq<Stream> -> Option<Stream>,
    lowest: seq<Stream> -> Option<Stream>,
    converted: bool,
    savedSuffix: string,
    title: string
  )
    requires HelpersPickFrom(highest, lowest, streams)
    ensures var r := Download(Corrected, req, streams, highest, lowest, converted, savedSuffix, title);
      r.Ok? && r.value.extension in KnownMime(req.kind) ==> r.value.mime == KnownMime(req.kind)[r.value.extension]
  {
    OfferMimeMismatch(Corrected, req, streams, highest, lowest, converted, savedSuffix, title);
  }

  /**
    An offer's MIME type disagrees with the table for its extension exactly
    when the handler as written keeps an "mp4" audio stream in its own
    container and the saved file has no suffix to correct it.
   */
  lemma OfferMimeMismatch(
    rule: AudioMimeRule,
    req: Request,
    streams: seq<Stream>,
    highest: seq<Stream> -> Option<Stream>,
    lowest: seq<Stream> -> Option<Stream>,
    converted: bool,
    savedSuffix: string,
    title: string
  )
    requires HelpersPickFrom(highest, lowest, streams)
    ensures var r := Download(rule, req, streams, highest, lowest, converted, savedSuffix, title);
      (r.Ok? && r.value.extension in KnownMime(req.kind) && r.value.mime != KnownMime(req.kind)[r.value.extension])
      <==>
      (&& rule == AsWritten && req.kind == Audio && !(req.hasFfmpeg && converted) && savedSuffix == []
       && SelectAudio(streams).Ok? && SelectAudio(streams).value.subtype == "mp4")
  {
    match req.kind
    case Video => VideoBranchMime(rule, req, streams, highest, lowest, converted, savedSuffix, title);
    case Audio =>
      if SelectAudio(streams).Ok? {
        if req.hasFfmpeg && converted {
          ConvertedBranchMime(rule, req, streams, highest, lowest, savedSuffix, title);
        } else {
          KeptBranchMime(rule, req, streams, highest, lowest, converted, savedSuffix, title);
        }
      }
  }

  /** Video offers never disagree with the table. */
  lemma VideoBranchMime(
    rule: AudioMimeRule,
    req: Request,
    streams: seq<Stream>,
    highest: seq<Stream> -> Option<Stream>,
    lowest: seq<Stream> -> Option<Stream>,
    converted: bool,
    savedSuffix: string,
    title: string
  )
    requires HelpersPickFrom(highest, lowest, streams) && req.kind == Video
    ensures var r := Download(rule, req, streams, highest, lowest, converted, savedSuffix, title);
      r.Ok? && r.value.extension in KnownMime(Video) ==> r.value.mime == KnownMime(Video)[r.value.extension]
  {
    var r := Download(rule, req, streams, highest, lowest, converted, savedSuffix, title);
    if r.Ok? {
      var s := SelectVideo(streams, req.quality, highest, lowest).value;
      assert r == Ok(Finish(Video, s, FileType("mp4", "video/mp4"), savedSuffix, title));
      VideoOfferMime(s, savedSuffix, title);
    }
  }

  /** A converted file is offered as "mp3", which the table does not list. */
  lemma ConvertedBranchMime(
    rule: AudioMimeRule,
    req: Request,
    streams: seq<Stream>,
    highest: seq<Stream> -> Option<Stream>,
    lowest: seq<Stream> -> Option<Stream>,
    savedSuffix: string,
    title: string
  )
    requires HelpersPickFrom(highest, lowest, streams) && req.kind == Audio && req.hasFfmpeg
    requires SelectAudio(streams).Ok?
    ensures var r := Download(rule, req, streams, highest, lowest, true, savedSuffix, title);
      r.Ok? && r.value.extension !in KnownMime(Audio)
  {
    var s := SelectAudio(streams).value;
    var offer := Finish(Audio, s, FileType("mp3", "audio/mpeg"), ConvertedSuffix, title);
    ConvertedOffer(s, title);
    Mp3Unknown(Audio, "audio/mpeg");
    assert offer.extension !in KnownMime(Audio);
    assert Download(rule, req, streams, highest, lowest, true, savedSuffix, title) == Ok(offer);
  }

  /**
    Audio kept in its own container disagrees with the table exactly when the
    rule is as written, the subtype is "mp4" and no suffix retypes the file.
   */
  lemma KeptBranchMime(
    rule: AudioMimeRule,
    req: Request,
    streams: seq<Stream>,
    highest: seq<Stream> -> Option<Stream>,
    lowest: seq<Stream> -> Option<Stream>,
    converted: bool,
    savedSuffix: string,
    title: string
  )
    requires HelpersPickFrom(highest, lowest, streams) && req.kind == Audio && !(req.hasFfmpeg && converted)
    requires SelectAudio(streams).Ok?
    ensures var r := Download(rule, req, streams, highest, lowest, converted, savedSuffix, title);
      && r.Ok?
      && ((r.value.extension in KnownMime(Audio) && r.value.mime != KnownMime(Audio)[r.value.extension])
          <==> (rule == AsWritten && savedSuffix == [] && SelectAudio(streams).value.subtype == "mp4"))
  {
    var s := SelectAudio(streams).value;
    var start := FileType(s.subtype, if rule == AsWritten then AudioMimeAsWritten(s.subtype) else AudioMime(s.subtype));
    assert Download(rule, req, streams, highest, lowest, converted, savedSuffix, title)
        == Ok(Finish(Audio, s, start, savedSuffix, title));
    KeptAudioMime(rule, s.subtype);
  }

  /** A video offer's MIME type always matches the table for its extension. */
  lemma VideoOfferMime(s: Stream, savedSuffix: string, title: string)
    ensures var offer := Finish(Video, s, FileType("mp4", "video/mp4"), savedSuffix, title);
      offer.extension in KnownMime(Video) ==> offer.mime == KnownMime(Video)[offer.extension]
  {
  }

  /**
    For audio kept in its own container, the starting MIME type disagrees with
    the table for the subtype exactly when the rule is as written and the
    subtype is "mp4".
   */
  lemma KeptAudioMime(rule: AudioMimeRule, subtype: string)
    ensures var mime := if rule == AsWritten then AudioMimeAsWritten(subtype) else AudioMime(subtype);
      (subtype in KnownMime(Audio) && mime != KnownMime(Audio)[subtype]) <==> (rule == AsWritten && subtype == "mp4")
  {
  }

  /**
    The handler as written offers the MP4 audio it prefers as "<title>.mp4"
    with MIME type audio/webm when the saved file has no suffix; the
    corrected rule offers it as audio/mp4.
   */
  lemma Mp4AudioOfferedAsWebm(
    quality: Quality,
    hasFfmpeg: bool,
    streams: seq<Stream>,
    highest: seq<Stream> -> Option<Stream>,
    lowest: seq<Stream> -> Option<Stream>,
    converted: bool,
    title: string
  )
    requires HelpersPickFrom(highest, lowest, streams)
    requires exists j :: 0 <= j < |streams| && IsAudioOnlyMp4(streams[j])
    requires !(hasFfmpeg && converted)
    ensures var r := Download(AsWritten, Request(Audio, quality, hasFfmpeg), streams, highest, lowest, converted, [], title);
      && r.Ok?
      && r.value.extension == "mp4"
      && r.value.fileName == FileName(title, "mp4")
      && r.value.mime == "audio/webm"
      && r.value.mime != KnownMime(Audio)["mp4"]
    ensures Download(Corrected, Request(Audio, quality, hasFfmpeg), streams, highest, lowest, converted, [], title).value.mime == "audio/mp4"
  {
    Mp4AudioTypedWebmAsWritten(streams);
  }
}

=== FILE: selection.dfy ===
/**
  Which stream the download handler fetches: the progressive video stream for
  the chosen quality, or the audio-only stream for an audio download.
 */
module Selection {
  import opened Common
  import opened Text
  import opened Streams

  /** The "Video quality" choice: the two extremes, or a tier label such as "720p". */
  datatype Quality = Best | Worst | Tier(text: string)

  /** The conditions that stop a download before anything is fetched. */
  datatype Failure =
    | NoAudioStream
    | NoCompleteVideoStream
    | InvalidQuality(text: string)

  /** The target height a tier label names: the label without its "p"s, read as a decimal number. */
  function ParseTier(text: string): (r: Option<nat>)
    ensures r.Some? <==> RemoveChar(text, 'p') != [] && AllDigits(RemoveChar(text, 'p'))
    ensures r.Some? ==> text != []
  {
    ParseNat(RemoveChar(text, 'p'))
  }

  /**
    A tier label written as a height followed by "p" names that height; the
    sidebar's "1080p", "720p", "480p" and "360p" are all of this form.
   */
  lemma TierLabelRoundTrip(height: nat)
    ensures ParseTier(NatString(height) + "p") == Some(height)
  {
    var text := NatString(height) + "p";
    assert text == NatString(height) + ['p'];
    assert 'p' !in NatString(height);
    RemoveCharDropsTrailing(NatString(height), 'p');
    NatStringRoundTrip(height);
  }

  lemma {:induction false} RemoveCharDropsTrailing(s: string, c: char)
    requires c !in s
    ensures RemoveChar(s + [c], c) == s
    decreases |s|
  {
    if s == [] {
      assert [c][1..] == [];
    } else {
      assert (s + [c])[1..] == s[1..] + [c];
      RemoveCharDropsTrailing(s[1..], c);
    }
  }

  predicate IsProgressive(s: Stream) {
    s.progressive
  }

  predicate IsProgressiveMp4(s: Stream) {
    s.progressive && s.subtype == "mp4"
  }

  predicate IsAudioOnly(s: Stream) {
    s.onlyAudio
  }

  predicate IsAudioOnlyMp4(s: Stream) {
    s.onlyAudio && s.subtype == "mp4"
  }

  /** Some stream of `all` is progressive and in an MP4 container. */
  predicate HasProgressiveMp4(all: seq<Stream>) {
    exists i :: 0 <= i < |all| && IsProgressiveMp4(all[i])
  }

  /**
    Whether a stream of `all` is a video candidate: progressive, and in an MP4
    container whenever `all` has a progressive MP4 stream at all.
   */
  function Candidate(all: seq<Stream>): (r: Stream -> bool) {
    (s: Stream) => s.progressive && (HasProgressiveMp4(all) ==> s.subtype == "mp4")
  }

  /**
    The streams a video download chooses among: the progressive MP4 streams,
    else every progressive stream, else the download stops. The candidates
    keep the order of `all`, so the first of them is the first candidate
    stream in the list.
   */
  function VideoCandidates(all: seq<Stream>): (r: Result<seq<Stream>, Failure>)
    ensures r.Err? <==> forall i :: 0 <= i < |all| ==> !all[i].progressive
    ensures r.Err? ==> r.error == NoCompleteVideoStream
    ensures r.Ok? ==> r.value != []
    ensures r.Ok? ==> forall s :: s in r.value <==>
      s in all && s.progressive && (HasProgressiveMp4(all) ==> s.subtype == "mp4")
    ensures r.Ok? ==> r.value == Keep(all, Candidate(all))
    ensures r.Ok? ==> First(all, Candidate(all)) == Some(r.value[0])
  {
    var mp4 := Keep(all, IsProgressiveMp4);
    if mp4 != [] then
      assert mp4[0] in all;
      var i :| 0 <= i < |all| && all[i] == mp4[0];
      assert IsProgressiveMp4(all[i]);
      KeepAgreeing(all, IsProgressiveMp4, Candidate(all));
      KeepHeadIsFirst(all, Candidate(all));
      Ok(mp4)
    else
      var any := Keep(all, IsProgressive);
      if any != [] then
        assert any[0] in all;
        var i :| 0 <= i < |all| && all[i] == any[0];
        assert all[i].progressive;
        assert !HasProgressiveMp4(all) by {
          forall i | 0 <= i < |all| ensures !IsProgressiveMp4(all[i]) {
            assert all[i] in all;
          }
        }
        KeepAgreeing(all, IsProgressive, Candidate(all));
        KeepHeadIsFirst(all, Candidate(all));
        Ok(any)
      else
        assert forall i :: 0 <= i < |all| ==> !IsProgressive(all[i]) by {
          forall i | 0 <= i < |all| ensures !IsProgressive(all[i]) {
            assert all[i] in all;
          }
        }
        Err(NoCompleteVideoStream)
  }

  /** The streams no taller than `target`; a stream without a resolution never qualifies. */
  function AtOrBelow(target: nat): (r: Stream -> bool) {
    (s: Stream) => s.resolution.Some? && s.resolution.value <= target
  }

  /** A library helper's answer for `streams`: nothing, or one of them. */
  predicate PicksFrom(pick: Option<Stream>, streams: seq<Stream>) {
    pick.Some? ==> pick.value in streams
  }

  /** The helper's answer, or the first candidate when the helper found nothing. */
  function OrFirst(pick: Option<Stream>, streams: seq<Stream>): (r: Stream)
    requires streams != []
    requires PicksFrom(pick, streams)
    ensures r in streams
    ensures pick.Some? ==> r == pick.value
    ensures pick.None? ==> r == streams[0]
  {
    match pick
    case Some(s) => s
    case None => streams[0]
  }

  /**
    The stream the quality setting picks from the candidate list. `highest`
    and `lowest` stand for the library's `get_highest_resolution` and
    `get_lowest_resolution`; all that is known of them is that they answer
    with one of the streams or with nothing.
   */
  function PickByQuality(
    streams: seq<Stream>,
    quality: Quality,
    highest: seq<Stream> -> Option<Stream>,
    lowest: seq<Stream> -> Option<Stream>
  ): (r: Result<Stream, Failure>)
    requires streams != []
    requires PicksFrom(highest(streams), streams) && PicksFrom(lowest(streams), streams)
    ensures r.Err? <==> quality.Tier? && ParseTier(quality.text).None?
    ensures r.Err? ==> r.error == InvalidQuality(quality.text)
    ensures r.Ok? ==> r.value in streams
    ensures quality == Best && highest(streams).Some? ==> r == Ok(highest(streams).value)
    ensures quality == Worst && lowest(streams).Some? ==> r == Ok(lowest(streams).value)
    ensures quality == Best && highest(streams).None? ==> r == Ok(streams[0])
    ensures quality == Worst && lowest(streams).None? ==> r == Ok(streams[0])
    ensures (quality.Tier? && ParseTier(quality.text).Some? &&
             Keep(streams, AtOrBelow(ParseTier(quality.text).value)) == []) ==>
              r == Ok(OrFirst(lowest(streams), streams))
  {
    match quality
    case Best => Ok(OrFirst(highest(streams), streams))
    case Worst => Ok(OrFirst(lowest(streams), streams))
    case Tier(text) =>
      match ParseTier(text)
      case None => Err(InvalidQuality(text))
      case Some(target) =>
        var matching := SortByHeightDesc(Keep(streams, AtOrBelow(target)));
        if matching != [] then
          SortPermutes(Keep(streams, AtOrBelow(target)));
          assert matching[0] in multiset(matching);
          Ok(matching[0])
        else Ok(OrFirst(lowest(streams), streams))
  }

  /** The library helpers answer with one of the candidates or with nothing. */
  predicate HelpersPickFrom(
    highest: seq<Stream> -> Option<Stream>,
    lowest: seq<Stream> -> Option<Stream>,
    all: seq<Stream>
  ) {
    VideoCandidates(all).Ok? ==>
      && PicksFrom(highest(VideoCandidates(all).value), VideoCandidates(all).value)
      && PicksFrom(lowest(VideoCandidates(all).value), VideoCandidates(all).value)
  }

  /**
    The stream a video download fetches. The helpers are asked about the
    candidates `Keep(all, Candidate(all))`; whenever they find nothing, the
    fetched stream is the first candidate of the list.
   */
  function SelectVideo(
    all: seq<Stream>,
    quality: Quality,
    highest: seq<Stream> -> Option<Stream>,
    lowest: seq<Stream> -> Option<Stream>
  ): (r: Result<Stream, Failure>)
    requires HelpersPickFrom(highest, lowest, all)
    ensures r == Err(NoCompleteVideoStream) <==> forall i :: 0 <= i < |all| ==> !all[i].progressive
    ensures r.Ok? <==> (exists i :: 0 <= i < |all| && all[i].progressive) && !(quality.Tier? && ParseTier(quality.text).None?)
    ensures r.Err? && r != Err(NoCompleteVideoStream) ==> quality.Tier? && r == Err(InvalidQuality(quality.text))
    ensures r.Ok? ==> r.value in all && r.value.progressive
    ensures r.Ok? && HasProgressiveMp4(all) ==> r.value.subtype == "mp4"
    ensures var cs := Keep(all, Candidate(all));
      r.Ok? && quality == Best ==>
        if highest(cs).Some? then r.value == highest(cs).value else First(all, Candidate(all)) == Some(r.value)
    ensures var cs := Keep(all, Candidate(all));
      r.Ok? && quality == Worst ==>
        if lowest(cs).Some? then r.value == lowest(cs).value else First(all, Candidate(all)) == Some(r.value)
    ensures var cs := Keep(all, Candidate(all));
      r.Ok? && quality.Tier? && ParseTier(quality.text).Some? && Keep(cs, AtOrBelow(ParseTier(quality.text).value)) == [] ==>
        if lowest(cs).Some? then r.value == lowest(cs).value else First(all, Candidate(all)) == Some(r.value)
  {
    match VideoCandidates(all)
    case Err(e) => Err(e)
    case Ok(streams) => PickByQuality(streams, quality, highest, lowest)
  }

  /**
    For a numeric tier with some candidate at or below the target height, the
    pick has a resolution, is no taller than the target, and is the earliest
    of the tallest such candidates; no other candidate is.
   */
  lemma TierPick(
    streams: seq<Stream>,
    text: string,
    highest: seq<Stream> -> Option<Stream>,
    lowest: seq<Stream> -> Option<Stream>,
    target: nat
  )
    requires streams != []
    requires PicksFrom(highest(streams), streams) && PicksFrom(lowest(streams), streams)
    requires ParseTier(text) == Some(target)
    requires exists i :: 0 <= i < |streams| && streams[i].resolution.Some? && streams[i].resolution.value <= target
    ensures var r := PickByQuality(streams, Tier(text), highest, lowest);
      && r.Ok?
      && r.value.resolution.Some?
      && r.value.resolution.value <= target
      && (exists i :: IsEarliestTallest(streams, AtOrBelow(target), i) && r.value == streams[i])
      && (forall i :: IsEarliestTallest(streams, AtOrBelow(target), i) ==> r.value == streams[i])
  {
    var i :| 0 <= i < |streams| && streams[i].resolution.Some? && streams[i].resolution.value <= target;
    assert streams[i] in Keep(streams, AtOrBelow(target));
    SortedKeepHead(streams, AtOrBelow(target));
  }

  /**
    The same rule read on the whole stream list: for a numeric tier with some
    candidate stream at or below the target height (the filter of the list by
    both conditions is not empty), the fetched stream is the earliest in the
    list of the tallest candidates at or below it, and no other stream is.
   */
  lemma TierPickInList(
    all: seq<Stream>,
    text: string,
    highest: seq<Stream> -> Option<Stream>,
    lowest: seq<Stream> -> Option<Stream>,
    target: nat
  )
    requires HelpersPickFrom(highest, lowest, all)
    requires ParseTier(text) == Some(target)
    requires Keep(all, Both(Candidate(all), AtOrBelow(target))) != []
    ensures var r := SelectVideo(all, Tier(text), highest, lowest);
      && r.Ok?
      && (exists i :: IsEarliestTallest(all, Both(Candidate(all), AtOrBelow(target)), i) && r.value == all[i])
      && (forall i :: IsEarliestTallest(all, Both(Candidate(all), AtOrBelow(target)), i) ==> r.value == all[i])
  {
    var q := Both(Candidate(all), AtOrBelow(target));
    var s := Keep(all, q)[0];
    assert s in all && q(s);
    var i :| 0 <= i < |all| && all[i] == s;
    KeepKeep(all, Candidate(all), AtOrBelow(target));
    var streams := CandidatesAreKept(all);
    TierPickIsSortedHead(streams, text, highest, lowest, target);
    SortedKeepHead(all, q);
  }

  /** When a video can be fetched, the candidates are the filter of `all` by `Candidate(all)`. */
  lemma CandidatesAreKept(all: seq<Stream>) returns (streams: seq<Stream>)
    requires exists i :: 0 <= i < |all| && Candidate(all)(all[i])
    ensures VideoCandidates(all) == Ok(streams)
    ensures streams == Keep(all, Candidate(all))
  {
    var i :| 0 <= i < |all| && Candidate(all)(all[i]);
    assert all[i].progressive;
    streams := VideoCandidates(all).value;
  }

  /** For a numeric tier with a candidate at or below it, the pick heads the sorted filter. */
  lemma TierPickIsSortedHead(
    streams: seq<Stream>,
    text: string,
    highest: seq<Stream> -> Option<Stream>,
    lowest: seq<Stream> -> Option<Stream>,
    target: nat
  )
    requires streams != []
    requires PicksFrom(highest(streams), streams) && PicksFrom(lowest(streams), streams)
    requires ParseTier(text) == Some(target)
    requires Keep(streams, AtOrBelow(target)) != []
    ensures SortByHeightDesc(Keep(streams, AtOrBelow(target))) != []
    ensures PickByQuality(streams, Tier(text), highest, lowest)
         == Ok(SortByHeightDesc(Keep(streams, AtOrBelow(target)))[0])
  {
  }

  /**
    Lowering the tier never raises the height of the pick, as long as the lower
    tier still has a candidate at or below it.
   */
  lemma TierMonotone(
    streams: seq<Stream>,
    lowLabel: string,
    highLabel: string,
    highest: seq<Stream> -> Option<Stream>,
    lowest: seq<Stream> -> Option<Stream>,
    low: nat,
    high: nat
  )
    requires streams != []
    requires PicksFrom(highest(streams), streams) && PicksFrom(lowest(streams), streams)
    requires ParseTier(lowLabel) == Some(low) && ParseTier(highLabel) == Some(high) && low <= high
    requires exists i :: 0 <= i < |streams| && streams[i].resolution.Some? && streams[i].resolution.value <= low
    ensures PickByQuality(streams, Tier(lowLabel), highest, lowest).Ok?
    ensures PickByQuality(streams, Tier(highLabel), highest, lowest).Ok?
    ensures Height(PickByQuality(streams, Tier(lowLabel), highest, lowest).value)
         <= Height(PickByQuality(streams, Tier(highLabel), highest, lowest).value)
  {
    TierPick(streams, lowLabel, highest, lowest, low);
    var i :| 0 <= i < |streams| && streams[i].resolution.Some? && streams[i].resolution.value <= low;
    assert streams[i].resolution.value <= high;
    TierPick(streams, highLabel, highest, lowest, high);
    var a :| IsEarliestTallest(streams, AtOrBelow(low), a)
      && PickByQuality(streams, Tier(lowLabel), highest, lowest).value == streams[a];
    var b :| IsEarliestTallest(streams, AtOrBelow(high), b)
      && PickByQuality(streams, Tier(highLabel), highest, lowest).value == streams[b];
    assert AtOrBelow(high)(streams[a]);
  }

  /** The sidebar's "720p" label names the height 720. */
  lemma Label720Parses()
    ensures ParseTier("720p") == Some(720)
  {
    assert NatString(7) == "7";
    assert NatString(72) == "72";
    assert NatString(720) == "720";
    TierLabelRoundTrip(720);
    assert "720p" == NatString(720) + "p";
  }

  /** With a 1080p and a 720p MP4 stream on offer, the "720p" tier fetches the 720p one. */
  lemma TierExample(highest: seq<Stream> -> Option<Stream>, lowest: seq<Stream> -> Option<Stream>)
    requires HelpersPickFrom(highest, lowest, [Stream(1, "mp4", true, false, Some(1080)), Stream(2, "mp4", true, false, Some(720))])
    ensures SelectVideo(
      [Stream(1, "mp4", true, false, Some(1080)), Stream(2, "mp4", true, false, Some(720))],
      Tier("720p"), highest, lowest)
      == Ok(Stream(2, "mp4", true, false, Some(720)))
  {
    var all := [Stream(1, "mp4", true, false, Some(1080)), Stream(2, "mp4", true, false, Some(720))];
    Label720Parses();
    assert Keep(all, IsProgressiveMp4) == all;
    assert VideoCandidates(all) == Ok(all);
    assert Keep(all, AtOrBelow(720)) == [all[1]];
    assert SortByHeightDesc([all[1]]) == [all[1]];
    TierPickIsSortedHead(all, "720p", highest, lowest, 720);
  }

  /**
    The stream an audio download fetches: the first audio-only MP4 stream,
    else the first audio-only stream, else the download stops. The rule is the
    same whether or not ffmpeg is installed.
   */
  function SelectAudio(streams: seq<Stream>): (r: Result<Stream, Failure>)
    ensures r.Err? <==> forall j :: 0 <= j < |streams| ==> !streams[j].onlyAudio
    ensures r.Err? ==> r.error == NoAudioStream
    ensures (exists j :: 0 <= j < |streams| && IsAudioOnlyMp4(streams[j])) ==>
      r.Ok? && IsFirst(streams, IsAudioOnlyMp4, r.value)
    ensures (forall j :: 0 <= j < |streams| ==> !IsAudioOnlyMp4(streams[j])) && r.Ok? ==>
      IsFirst(streams, IsAudioOnly, r.value)
  {
    match First(streams, IsAudioOnlyMp4)
    case Some(s) => Ok(s)
    case None =>
      match First(streams, IsAudioOnly)
      case Some(s) => Ok(s)
      case None => Err(NoAudioStream)
  }
}

=== FILE: streams.dfy ===
/**
  The stream list pytube returns for a video, and the list operations the
  download handler applies to it: `filter(...)`, `.first()` and
  `sorted(..., key=height, reverse=True)`.
 */
module Streams {
  import opened Common

  /**
    One entry of the video's stream list, reduced to the fields the download
    rules read. pytube reports a resolution as a label such as "720p"; the
    model keeps its height, 720. `progressive` streams carry video and audio
    in one file; `onlyAudio` streams carry an audio track and no video.
   */
  datatype Stream = Stream(
    itag: nat,
    subtype: string,
    progressive: bool,
    onlyAudio: bool,
    resolution: Option<nat>
  )

  /** The sort key of youtube_downloader_app.py:193: the height, or 0 when there is none. */
  function Height(s: Stream): (r: nat) {
    s.resolution.GetOr(0)
  }

  /** `r` is `ss` with some entries deleted: its entries occur in `ss` in the same order. */
  ghost predicate Subsequence(r: seq<Stream>, ss: seq<Stream>)
    decreases |ss|
  {
    if r == [] then true
    else if ss == [] then false
    else if r[0] == ss[0] then Subsequence(r[1..], ss[1..])
    else Subsequence(r, ss[1..])
  }

  /** A list comprehension with a condition: the streams satisfying `p`, in list order. */
  function Keep(ss: seq<Stream>, p: Stream -> bool): (r: seq<Stream>)
    ensures |r| <= |ss|
    ensures forall s :: s in r <==> s in ss && p(s)
    decreases |ss|
  {
    if ss == [] then []
    else if p(ss[0]) then [ss[0]] + Keep(ss[1..], p)
    else Keep(ss[1..], p)
  }

  /**
    The filter keeps every stream satisfying `p` as often as it occurs, drops
    every other one, and leaves the kept ones in their list order. These
    three facts determine the filtered list.
   */
  lemma {:induction false} KeepExactly(ss: seq<Stream>, p: Stream -> bool)
    ensures forall s :: multiset(Keep(ss, p))[s] == if p(s) then multiset(ss)[s] else 0
    ensures Subsequence(Keep(ss, p), ss)
    decreases |ss|
  {
    if ss != [] {
      KeepExactly(ss[1..], p);
      assert ss == [ss[0]] + ss[1..];
      if p(ss[0]) {
        var r := Keep(ss, p);
        assert r[0] == ss[0] && r[1..] == Keep(ss[1..], p);
      } else {
        var r := Keep(ss, p);
        if r != [] {
          assert r[0] in r;
        }
      }
    }
  }

  /** Streams satisfying both `p` and `q`. */
  function Both(p: Stream -> bool, q: Stream -> bool): Stream -> bool {
    (s: Stream) => p(s) && q(s)
  }

  /** Filtering twice is filtering once by both conditions. */
  lemma {:induction false} KeepKeep(ss: seq<Stream>, p: Stream -> bool, q: Stream -> bool)
    ensures Keep(Keep(ss, p), q) == Keep(ss, Both(p, q))
    decreases |ss|
  {
    if ss != [] {
      KeepKeep(ss[1..], p, q);
      var rest := Keep(ss[1..], p);
      if p(ss[0]) {
        var kept := [ss[0]] + rest;
        assert kept[0] == ss[0] && kept[1..] == rest;
      }
    }
  }

  /** Two conditions that agree on every stream of `ss` filter it alike. */
  lemma {:induction false} KeepAgreeing(ss: seq<Stream>, p: Stream -> bool, q: Stream -> bool)
    requires forall i :: 0 <= i < |ss| ==> p(ss[i]) == q(ss[i])
    ensures Keep(ss, p) == Keep(ss, q)
    decreases |ss|
  {
    if ss != [] {
      assert p(ss[0]) == q(ss[0]);
      forall i | 0 <= i < |ss[1..]| ensures p(ss[1..][i]) == q(ss[1..][i]) {
        assert ss[1..][i] == ss[i + 1];
      }
      KeepAgreeing(ss[1..], p, q);
    }
  }

  /** The index of the first stream at or after `from` that satisfies `p`. */
  function FirstIndex(ss: seq<Stream>, p: Stream -> bool, from: nat): (r: Option<nat>)
    requires from <= |ss|
    ensures r.Some? ==> from <= r.value < |ss| && p(ss[r.value])
    ensures r.Some? ==> forall j :: from <= j < r.value ==> !p(ss[j])
    ensures r.None? <==> forall j :: from <= j < |ss| ==> !p(ss[j])
    decreases |ss| - from
  {
    if from == |ss| then None
    else if p(ss[from]) then Some(from)
    else FirstIndex(ss, p, from + 1)
  }

  /** `x` sits at the first position of `ss` whose stream satisfies `p`. */
  ghost predicate IsFirst(ss: seq<Stream>, p: Stream -> bool, x: Stream) {
    exists i :: 0 <= i < |ss| && ss[i] == x && p(x) && forall j :: 0 <= j < i ==> !p(ss[j])
  }

  /** pytube's `streams.filter(...).first()`: the first matching stream, or `None`. */
  function First(ss: seq<Stream>, p: Stream -> bool): (r: Option<Stream>)
    ensures r.None? <==> forall j :: 0 <= j < |ss| ==> !p(ss[j])
    ensures r.Some? ==> IsFirst(ss, p, r.value)
  {
    match FirstIndex(ss, p, 0)
    case Some(i) => Some(ss[i])
    case None => None
  }

  /** From any position on, the first match is the head of the filtered rest of the list. */
  lemma {:induction false} FirstIndexIsKeepHead(ss: seq<Stream>, p: Stream -> bool, from: nat)
    requires from <= |ss| && Keep(ss[from..], p) != []
    ensures FirstIndex(ss, p, from).Some?
    ensures ss[FirstIndex(ss, p, from).value] == Keep(ss[from..], p)[0]
    decreases |ss| - from
  {
    var rest := ss[from..];
    assert rest[0] == ss[from];
    if !p(ss[from]) {
      assert rest[1..] == ss[from + 1..];
      FirstIndexIsKeepHead(ss, p, from + 1);
    }
  }

  /** The head of a filter is the stream `.first()` answers for the same condition. */
  lemma KeepHeadIsFirst(ss: seq<Stream>, p: Stream -> bool)
    requires Keep(ss, p) != []
    ensures First(ss, p) == Some(Keep(ss, p)[0])
  {
    assert ss[0..] == ss;
    FirstIndexIsKeepHead(ss, p, 0);
  }

  /** Heights never increase along `ss`. */
  ghost predicate HeightDescending(ss: seq<Stream>) {
    forall i, j :: 0 <= i < j < |ss| ==> Height(ss[j]) <= Height(ss[i])
  }

  /**
    Puts `x` in front of the first stream of `ys` that is no taller than it.
    `x` comes from earlier in the input than every stream of `ys`, so placing
    it before equal heights keeps the sort stable.
   */
  function InsertByHeight(x: Stream, ys: seq<Stream>): (r: seq<Stream>)
    ensures |r| == |ys| + 1
    ensures multiset(r) == multiset(ys) + multiset{x}
    decreases |ys|
  {
    if ys == [] || Height(ys[0]) <= Height(x) then [x] + ys
    else
      assert ys == [ys[0]] + ys[1..];
      [ys[0]] + InsertByHeight(x, ys[1..])
  }

  /**
    Python's `sorted(ss, key=Height, reverse=True)`: a stable sort, tallest
    first, streams of equal height left in their input order.
   */
  function SortByHeightDesc(ss: seq<Stream>): (r: seq<Stream>)
    ensures |r| == |ss|
    decreases |ss|
  {
    if ss == [] then [] else InsertByHeight(ss[0], SortByHeightDesc(ss[1..]))
  }

  lemma {:induction false} InsertKeepsDescending(x: Stream, ys: seq<Stream>)
    requires HeightDescending(ys)
    ensures HeightDescending(InsertByHeight(x, ys))
    decreases |ys|
  {
    if ys != [] && Height(ys[0]) > Height(x) {
      var tail := InsertByHeight(x, ys[1..]);
      InsertKeepsDescending(x, ys[1..]);
      forall k | 0 <= k < |tail| ensures Height(tail[k]) <= Height(ys[0]) {
        assert tail[k] in multiset(tail);
        if tail[k] != x {
          assert tail[k] in multiset(ys[1..]);
          var m :| 0 <= m < |ys[1..]| && ys[1..][m] == tail[k];
          assert ys[m + 1] == tail[k];
        }
      }
    }
  }

  /** The sort keeps exactly the streams it is given. */
  lemma {:induction false} SortPermutes(ss: seq<Stream>)
    ensures multiset(SortByHeightDesc(ss)) == multiset(ss)
    decreases |ss|
  {
    if ss != [] {
      SortPermutes(ss[1..]);
      assert ss == [ss[0]] + ss[1..];
    }
  }

  /** The sort puts the streams in height-descending order. */
  lemma {:induction false} SortDescending(ss: seq<Stream>)
    ensures HeightDescending(SortByHeightDesc(ss))
    decreases |ss|
  {
    if ss != [] {
      SortDescending(ss[1..]);
      InsertKeepsDescending(ss[0], SortByHeightDesc(ss[1..]));
    }
  }

  /**
    Index `i` holds the earliest of the tallest streams satisfying `p`: it
    satisfies `p`, no stream satisfying `p` is taller, and every earlier stream
    satisfying `p` is strictly shorter.
   */
  ghost predicate IsEarliestTallest(ss: seq<Stream>, p: Stream -> bool, i: int) {
    && 0 <= i < |ss|
    && p(ss[i])
    && (forall j :: 0 <= j < |ss| && p(ss[j]) ==> Height(ss[j]) <= Height(ss[i]))
    && (forall j :: 0 <= j < i && p(ss[j]) ==> Height(ss[j]) < Height(ss[i]))
  }

  /** At most one index is the earliest of the tallest. */
  lemma EarliestTallestUnique(ss: seq<Stream>, p: Stream -> bool, i: int, k: int)
    requires IsEarliestTallest(ss, p, i) && IsEarliestTallest(ss, p, k)
    ensures i == k
  {
  }

  /** Prepending a stream that fails `p` shifts the earliest tallest by one. */
  lemma EarliestTallestBehindSkipped(ss: seq<Stream>, p: Stream -> bool, k: int)
    requires ss != [] && !p(ss[0]) && IsEarliestTallest(ss[1..], p, k)
    ensures IsEarliestTallest(ss, p, k + 1)
  {
    forall j | 0 < j < |ss| ensures ss[j] == ss[1..][j - 1] {
    }
  }

  /** Prepending a stream shorter than the earliest tallest shifts it by one. */
  lemma EarliestTallestBehindShorter(ss: seq<Stream>, p: Stream -> bool, k: int)
    requires ss != [] && IsEarliestTallest(ss[1..], p, k) && Height(ss[0]) < Height(ss[1..][k])
    ensures IsEarliestTallest(ss, p, k + 1)
  {
    forall j | 0 < j < |ss| ensures ss[j] == ss[1..][j - 1] {
    }
  }

  /** A first stream satisfying `p` that no later one outgrows is the earliest tallest. */
  lemma EarliestTallestAtFront(ss: seq<Stream>, p: Stream -> bool)
    requires ss != [] && p(ss[0])
    requires forall j :: 0 <= j < |ss[1..]| && p(ss[1..][j]) ==> Height(ss[1..][j]) <= Height(ss[0])
    ensures IsEarliestTallest(ss, p, 0)
  {
    forall j | 0 < j < |ss| ensures ss[j] == ss[1..][j - 1] {
    }
  }

  /** A head that fails `p` leaves the sorted filter as it was, one position later in the list. */
  lemma SortedKeepHeadSkip(ss: seq<Stream>, p: Stream -> bool, k: int)
    requires ss != [] && !p(ss[0])
    requires IsEarliestTallest(ss[1..], p, k)
    requires SortByHeightDesc(Keep(ss[1..], p)) != [] && SortByHeightDesc(Keep(ss[1..], p))[0] == ss[1..][k]
    ensures IsEarliestTallest(ss, p, k + 1)
    ensures SortByHeightDesc(Keep(ss, p)) != [] && SortByHeightDesc(Keep(ss, p))[0] == ss[k + 1]
  {
    assert Keep(ss, p) == Keep(ss[1..], p);
    EarliestTallestBehindSkipped(ss, p, k);
  }

  /** A head that is the only stream passing `p` heads the sorted filter. */
  lemma SortedKeepHeadAlone(ss: seq<Stream>, p: Stream -> bool)
    requires ss != [] && p(ss[0]) && Keep(ss[1..], p) == []
    ensures IsEarliestTallest(ss, p, 0)
    ensures SortByHeightDesc(Keep(ss, p)) != [] && SortByHeightDesc(Keep(ss, p))[0] == ss[0]
  {
    var rest := ss[1..];
    assert Keep(ss, p) == [ss[0]];
    assert SortByHeightDesc([ss[0]]) == [ss[0]];
    forall j | 0 <= j < |rest| ensures !p(rest[j]) {
      assert rest[j] in rest;
    }
    EarliestTallestAtFront(ss, p);
  }

  /** The sorted filter of a list whose head passes `p` inserts that head into the sorted rest. */
  lemma SortedKeepUnfold(ss: seq<Stream>, p: Stream -> bool)
    requires ss != [] && p(ss[0])
    ensures SortByHeightDesc(Keep(ss, p)) == InsertByHeight(ss[0], SortByHeightDesc(Keep(ss[1..], p)))
  {
    assert Keep(ss, p)[1..] == Keep(ss[1..], p);
  }

  /** Inserting `x` puts it first exactly when the current head is no taller. */
  lemma InsertHead(x: Stream, ys: seq<Stream>)
    requires ys != []
    ensures InsertByHeight(x, ys)[0] == if Height(ys[0]) <= Height(x) then x else ys[0]
  {
  }

  /** A head that passes `p` is inserted into the sorted filter of the rest. */
  lemma SortedKeepHeadInsert(ss: seq<Stream>, p: Stream -> bool, k: int) returns (i: int)
    requires ss != [] && p(ss[0])
    requires IsEarliestTallest(ss[1..], p, k)
    requires SortByHeightDesc(Keep(ss[1..], p)) != [] && SortByHeightDesc(Keep(ss[1..], p))[0] == ss[1..][k]
    ensures IsEarliestTallest(ss, p, i)
    ensures SortByHeightDesc(Keep(ss, p)) != [] && SortByHeightDesc(Keep(ss, p))[0] == ss[i]
  {
    var sortedRest := SortByHeightDesc(Keep(ss[1..], p));
    SortedKeepUnfold(ss, p);
    InsertHead(ss[0], sortedRest);
    if Height(ss[1..][k]) <= Height(ss[0]) {
      EarliestTallestBeforeTaller(ss, p, k);
      i := 0;
    } else {
      EarliestTallestBehindShorter(ss, p, k);
      assert ss[k + 1] == ss[1..][k];
      i := k + 1;
    }
  }

  /** A first stream satisfying `p`, at least as tall as the rest's earliest tallest, is the earliest tallest. */
  lemma EarliestTallestBeforeTaller(ss: seq<Stream>, p: Stream -> bool, k: int)
    requires ss != [] && p(ss[0])
    requires IsEarliestTallest(ss[1..], p, k) && Height(ss[1..][k]) <= Height(ss[0])
    ensures IsEarliestTallest(ss, p, 0)
  {
    EarliestTallestAtFront(ss, p);
  }

  /** The head of the stably sorted filter is the earliest of the tallest streams satisfying `p`. */
  lemma {:induction false} SortedKeepHeadExists(ss: seq<Stream>, p: Stream -> bool) returns (i: int)
    requires Keep(ss, p) != []
    ensures IsEarliestTallest(ss, p, i)
    ensures SortByHeightDesc(Keep(ss, p)) != [] && SortByHeightDesc(Keep(ss, p))[0] == ss[i]
    decreases |ss|
  {
    if !p(ss[0]) {
      assert Keep(ss, p) == Keep(ss[1..], p);
      var k := SortedKeepHeadExists(ss[1..], p);
      SortedKeepHeadSkip(ss, p, k);
      i := k + 1;
    } else if Keep(ss[1..], p) == [] {
      SortedKeepHeadAlone(ss, p);
      i := 0;
    } else {
      var k := SortedKeepHeadExists(ss[1..], p);
      i := SortedKeepHeadInsert(ss, p, k);
    }
  }

  /**
    The head of the stably sorted filter is the earliest of the tallest
    streams satisfying `p`, and it is the only stream that is.
   */
  lemma {:induction false} SortedKeepHead(ss: seq<Stream>, p: Stream -> bool)
    requires Keep(ss, p) != []
    ensures SortByHeightDesc(Keep(ss, p)) != []
    ensures exists i :: IsEarliestTallest(ss, p, i) && SortByHeightDesc(Keep(ss, p))[0] == ss[i]
    ensures forall i :: IsEarliestTallest(ss, p, i) ==> SortByHeightDesc(Keep(ss, p))[0] == ss[i]
  {
    var i := SortedKeepHeadExists(ss, p);
    forall i' | IsEarliestTallest(ss, p, i') ensures SortByHeightDesc(Keep(ss, p))[0] == ss[i'] {
      EarliestTallestUnique(ss, p, i, i');
    }
  }
}

=== FILE: text.dfy ===
/**
  The small pieces of Python string handling the download rules rely on:
  `str(n)`, `int(s)` on a digit string, `f"{n:02d}"`, `str.lower`/`str.upper`,
  `str.replace(c, '')`, `str.lstrip('.')` and slicing `s[:n]`.
  Case mapping covers ASCII letters only.
 */
module Text {
  import opened Common

  predicate IsDigit(c: char) {
    '0' <= c <= '9'
  }

  predicate AllDigits(s: string) {
    forall i :: 0 <= i < |s| ==> IsDigit(s[i])
  }

  function DigitValue(c: char): (d: nat)
    requires IsDigit(c)
    ensures d < 10
  {
    c as int - '0' as int
  }

  function DigitChar(d: nat): (c: char)
    requires d < 10
    ensures IsDigit(c) && DigitValue(c) == d
  {
    (d + '0' as int) as char
  }

  /** The number a run of decimal digits denotes, leading zeros allowed; the empty run denotes 0. */
  function DigitsValue(s: string): (r: nat)
    requires AllDigits(s)
    decreases |s|
  {
    if s == [] then 0 else DigitsValue(s[..|s| - 1]) * 10 + DigitValue(s[|s| - 1])
  }

  /** Python's `int(s)` restricted to plain digit strings; anything else raises, here `None`. */
  function ParseNat(s: string): (r: Option<nat>)
    ensures r.Some? <==> s != [] && AllDigits(s)
  {
    if s != [] && AllDigits(s) then Some(DigitsValue(s)) else None
  }

  /** Python's `str(n)` for a non-negative integer: decimal digits, no leading zero. */
  function NatString(n: nat): (r: string)
    ensures r != [] && AllDigits(r)
    ensures |r| == 1 || r[0] != '0'
    decreases n
  {
    if n < 10 then [DigitChar(n)] else NatString(n / 10) + [DigitChar(n % 10)]
  }

  /** Reading back what `str(n)` wrote gives `n`. */
  lemma {:induction false} NatStringRoundTrip(n: nat)
    ensures ParseNat(NatString(n)) == Some(n)
    decreases n
  {
    var s := NatString(n);
    if n < 10 {
      assert s[..|s| - 1] == [];
    } else {
      NatStringRoundTrip(n / 10);
      assert s[..|s| - 1] == NatString(n / 10);
      assert DigitValue(s[|s| - 1]) == n % 10;
      assert DigitsValue(s) == DigitsValue(NatString(n / 10)) * 10 + n % 10;
    }
  }

  /** Python's `str(i)` for any integer: a minus sign before the magnitude when negative. */
  function IntString(i: int): (r: string)
    ensures r != [] && (|r| == 1 || r[0] != '0')
    ensures r[0] == '-' ==> |r| >= 2 && r[1] != '0'
  {
    if i < 0 then "-" + NatString(-i) else NatString(i)
  }

  /** Python's `int(s)` on an optionally negative digit string. */
  function ParseInt(s: string): (r: Option<int>)
    ensures r.Some? ==> s != []
  {
    if s != [] && s[0] == '-' then
      match ParseNat(s[1..])
      case Some(n) => Some(0 - n)
      case None => None
    else
      match ParseNat(s)
      case Some(n) => Some(n)
      case None => None
  }

  lemma IntStringRoundTrip(i: int)
    ensures ParseInt(IntString(i)) == Some(i)
  {
    if i < 0 {
      var s := IntString(i);
      assert s[1..] == NatString(-i);
      NatStringRoundTrip(-i);
    } else {
      NatStringRoundTrip(i);
    }
  }

  /** Python's `f"{n:02d}"` for `n < 100`: exactly two digits. */
  function Pad2(n: nat): (r: string)
    requires n < 100
    ensures |r| == 2 && AllDigits(r)
    ensures DigitsValue(r) == n
  {
    var r := [DigitChar(n / 10), DigitChar(n % 10)];
    assert r[..1][..0] == [];
    assert r[..1] == [DigitChar(n / 10)];
    assert DigitsValue(r[..1]) == n / 10;
    assert DigitsValue(r) == (n / 10) * 10 + n % 10;
    r
  }

  function LowerChar(c: char): char {
    if 'A' <= c <= 'Z' then (c as int + 32) as char else c
  }

  function UpperChar(c: char): char {
    if 'a' <= c <= 'z' then (c as int - 32) as char else c
  }

  /** Python's `str.lower`, on ASCII letters. */
  function Lower(s: string): (r: string)
    ensures |r| == |s|
    ensures forall i :: 0 <= i < |s| ==> r[i] == LowerChar(s[i])
  {
    seq(|s|, i requires 0 <= i < |s| => LowerChar(s[i]))
  }

  /** Python's `str.upper`, on ASCII letters. */
  function Upper(s: string): (r: string)
    ensures |r| == |s|
    ensures forall i :: 0 <= i < |s| ==> r[i] == UpperChar(s[i])
  {
    seq(|s|, i requires 0 <= i < |s| => UpperChar(s[i]))
  }

  /** `s.replace(c, '')`: every occurrence of `c` removed, the rest kept in order. */
  function RemoveChar(s: string, c: char): (r: string)
    ensures |r| <= |s|
    ensures c !in r
    ensures c !in s ==> r == s
    decreases |s|
  {
    if s == [] then []
    else if s[0] == c then RemoveChar(s[1..], c)
    else [s[0]] + RemoveChar(s[1..], c)
  }

  /** `s.lstrip('.')`: every leading dot removed. */
  function StripLeadingDots(s: string): (r: string)
    ensures |r| <= |s| && r == s[|s| - |r|..]
    ensures r == [] || r[0] != '.'
    ensures forall i :: 0 <= i < |s| - |r| ==> s[i] == '.'
    decreases |s|
  {
    if s != [] && s[0] == '.' then StripLeadingDots(s[1..]) else s
  }

  /** `s[:n]`: the first `n` characters, or all of `s` when it is shorter. */
  function Prefix(s: string, n: nat): (r: string)
    ensures |r| == if |s| < n then |s| else n
    ensures r <= s
  {
    if |s| < n then s else s[..n]
  }

  /**
    The text after the last dot of `s`, or `None` when `s` has no dot: how a
    file name is read back into an extension.
   */
  function AfterLastDot(s: string): (r: Option<string>)
    ensures r.None? <==> '.' !in s
    ensures r.Some? ==> '.' !in r.value && |r.value| < |s| && r.value == s[|s| - |r.value|..]
    ensures r.Some? ==> s[|s| - |r.value| - 1] == '.'
    decreases |s|
  {
    if s == [] then None
    else if s[|s| - 1] == '.' then Some([])
    else
      match AfterLastDot(s[..|s| - 1])
      case Some(tail) => Some(tail + [s[|s| - 1]])
      case None => None
  }

  /** Joining a stem and a dot-free extension with a dot and splitting at the last dot gives the extension back. */
  lemma {:induction false} AfterLastDotOfJoin(stem: string, ext: string)
    requires '.' !in ext
    ensures AfterLastDot(stem + "." + ext) == Some(ext)
    decreases |ext|
  {
    var s := stem + "." + ext;
    if ext == [] {
      assert s[|s| - 1] == '.';
    } else {
      var shorter := ext[..|ext| - 1];
      assert '.' !in shorter by {
        forall i | 0 <= i < |shorter| ensures shorter[i] != '.' {
          assert shorter[i] == ext[i];
        }
      }
      AfterLastDotOfJoin(stem, shorter);
      assert s[..|s| - 1] == stem + "." + shorter;
      assert s[|s| - 1] == ext[|ext| - 1];
      assert shorter + [ext[|ext| - 1]] == ext;
    }
  }
}
